=== FILE: README.md ===
# Results reconciliation engine, in Dafny

This project models the core of `update_results.py`, a script that fills a
PostgreSQL `results` table with finished football results. It reads the
events it has odds for from its own `odds1x2` table (the "local" or
Pinnacle events). It fetches one day at a time of scheduled events from
an external sports feed. Each finished feed event of the tracked
tournament is matched to a local event, and the result is written under
the local event's key.

The model follows the code's structure:

- `Names`: `strip().lower()` on team names. It is ASCII only, with Python's
  ASCII whitespace set.
- `PyValues`: null, booleans, integers and strings, the JSON values a
  `tournament.id` is taken to hold, and Python's `str()` on them. The
  tournament check compares `str()` of both sides. Floats, objects and
  arrays are not covered (see Left out).
- `Events`: the records involved. Instants are whole seconds, and a
  calendar date is a day number.
- `Store`: the `results` table under `INSERT ... ON CONFLICT DO NOTHING`,
  keyed by `event_id`.
- `Filter`: the three eligibility checks, in the code's order.
- `Matcher`: the first-match scan over the local events. It uses exact
  normalised names and a 14-day window.
- `Batch`: `match_and_insert_results`. It is a left fold of per-event
  outcomes into the table and the `count`/`skipped` tallies. There is also
  a loop implementation (`MatchAndInsertResults`) proved equal to the fold.
- `Driver`: `update`, one batch per day from the first date to the last,
  inclusive. There is a loop implementation (`Update`) proved equal to the
  recursive definition.
- `Reader`: the projection of `odds1x2` rows in `fetch_pinnacle_events`.
  It comes both as intended and as written (see Findings).
- `Scenarios`: concrete batches worked through to their exact results.

Several inputs become explicit parameters:

- The feed's day-by-day responses become a function from day numbers to
  an optional event list. A failed request is `None`.
- Whether each insert statement raises becomes a per-event boolean
  oracle. Positions the oracle does not cover do not raise.
- The host's UTC offset, which `datetime.fromtimestamp` applies, becomes
  part of the configuration.
- The rows the odds query returns are an input sequence.

## Model

| member | source | states |
|---|---|---|
| Names.Lower | update_results.py:51-52 | lowercasing keeps the length, maps every ASCII capital to its small letter, keeps every other character, and leaves no capital |
| Names.Trim | update_results.py:51-52 | the stripped name has whitespace at neither end |
| Names.TrimIsPadded | update_results.py:100-101 | strip keeps one contiguous piece of the input and removes only whitespace before and after it |
| Names.TrimLeftDropsPrefix | update_results.py:100-101 | lstrip removes a whitespace prefix and keeps the rest unchanged |
| Names.TrimRightDropsSuffix | update_results.py:100-101 | rstrip removes a whitespace suffix and keeps the rest unchanged |
| Names.TrimOfTrimmed | update_results.py:51-52 | stripping a name with no surrounding whitespace returns it unchanged |
| Names.TrimLower | update_results.py:100-101 | stripping and lowercasing commute |
| Names.Normalize | update_results.py:100-101 | `strip().lower()` always yields a name in normal form: trimmed, with no capitals |
| Names.LocalName | update_results.py:51-52 | the local reading of a stored name, NULL or empty read as "", equals the feed-side reading of the same value and is normal |
| Names.FeedName | update_results.py:100-101 | the feed's reading of a team name is normal, and an absent name reads as "" |
| Names.NormalizeFixedPoint | update_results.py:100-101 | a name is unchanged by normalisation exactly when it is trimmed and has no capitals |
| Names.NormalizeIdempotent | update_results.py:100-101 | normalising twice is normalising once |
| Names.TrimPadding | update_results.py:100-101 | strip removes exactly the whitespace padding around a trimmed core |
| Names.PaddingIgnored | update_results.py:100-101 | surrounding whitespace never changes the stripped name |
| Names.CosmeticVariantsAgree | update_results.py:100-101 | names differing only in ASCII case and surrounding whitespace normalise identically |
| PyValues.NatToString | update_results.py:90 | the decimal rendering of a natural number is non-empty, all digits, and has no leading zero unless it is "0" |
| PyValues.IntToString | update_results.py:90 | `str` of an int is non-empty and is all digits exactly when the int is non-negative |
| PyValues.ParseNatToString | update_results.py:90 | parsing the decimal rendering of n gives n back |
| PyValues.IntToStringInjective | update_results.py:90 | two ints have the same `str` exactly when they are equal |
| PyValues.StrEqualsIntId | update_results.py:90 | `str(x) == str(n)` for an int n holds exactly for x the int n or the text of its decimal digits; null and booleans never pass |
| PyValues.Str | update_results.py:90 | the `str` of null, a boolean or an int is non-empty, and starts with a digit or '-' exactly when it is an int's |
| PyValues.StrInjectiveOnNonText | update_results.py:90 | among null, booleans and ints, two values have the same `str` exactly when they are equal |
| Events.DayOfBounds | update_results.py:110 | a wall-clock reading falls on day d exactly when it lies in d's 86400 seconds, also before 1970 |
| Events.DayOf | update_results.py:102-110 | `.date()` of a reading is the day whose 86400 seconds contain it (floor division, also before 1970) |
| Events.HostOffsetShiftsDay | update_results.py:102 | reading the feed's timestamp on the host's clock moves its date by at most one day: forward east of UTC, backward west of it, not at all on a UTC host |
| Store.Insert | update_results.py:76-80 | insert-if-absent: the table only grows and by at most the row; the key set gains the row's key; the table is unchanged exactly when the key is already present; one row per key is preserved |
| Store.InsertIdempotent | update_results.py:76-80 | inserting the same row twice leaves what inserting it once left |
| Store.InsertFreshKey | update_results.py:76-80 | a row with a new key is stored and grows the table by one |
| Filter.Screen | update_results.py:85-99 | an event passes exactly when it is finished, of the configured tournament by `str`, and has both normal-time scores, which are returned; the status check comes first and the tournament check second |
| Filter.IntTournamentCheck | update_results.py:90 | with the integer id configured, a finished event passes the tournament check exactly when the feed gives that integer or its decimal text |
| Matcher.FirstMatchFrom | update_results.py:105-111 | the scan from position k returns the first matching local event at or after k, or none when none matches |
| Matcher.FirstMatch | update_results.py:104-126 | the chosen local event matches and no earlier one does; nothing is chosen exactly when no local event matches |
| Matcher.ScanLocals | update_results.py:104-126 | the loop that breaks at the first match finds the same local event as the first-match definition |
| Matcher.FirstMatchIsEarliest | update_results.py:105-126 | an index is chosen exactly when it matches and every earlier one does not; list order decides, not nearness in time |
| Matcher.ToleranceBoundary | update_results.py:110 | with equal names, start dates 14 days apart match and 15 days apart do not, in both directions |
| Matcher.NamesMustAgree | update_results.py:107-109 | a match implies both feed names normalise to the local names, which are in normal form |
| Matcher.MatchWindow | update_results.py:107-111 | a feed event matches a local event exactly when both normalised names are equal and its start reading lies from midnight 14 days before the local start date up to, not including, midnight 15 days after it |
| Batch.Classify | update_results.py:84-129 | an event is filtered exactly when ineligible, with the filter's verdict; unmatched exactly when eligible with no match; an insert is attempted exactly when eligible and matched; only an attempted insert can raise |
| Batch.AttemptedRow | update_results.py:113-120 | the written row has the first matching local event's key, the feed's raw names (which normalise to the local ones), the feed's start time, and the normal-time scores |
| Batch.BuildRowAgreesWithMatch | update_results.py:113-120 | the row built for a matching local event has its key, feed names that normalise back to its names, a start date within 14 days of its own, and the given scores |
| Batch.SkipEffect | update_results.py:86-129 | a filtered or unmatched event adds exactly one to `skipped` and changes nothing else; a matched event never adds to `skipped` |
| Batch.StepEffect | update_results.py:84-129 | each event adds one to exactly one tally, except a raised insert, which changes neither tally nor table; `count` grows exactly for an executed insert, and only that can touch the table, under its own key |
| Batch.OutcomesPartition | update_results.py:81-129 | executed, skipped and raised events together number the events |
| Batch.Apply | update_results.py:84-129 | folding outcomes adds the executed ones to `count` and the filtered or unmatched ones to `skipped`; the table only grows, only by rows of executed statements, gains exactly their keys, keeps one row per key, and is unchanged if their keys were all present |
| Batch.ProcessBatch | update_results.py:75-129 | a batch from zero tallies counts the executed statements and the skipped events; the table only grows, gains exactly the keys of executed statements, and keeps one row per key |
| Batch.BatchAccounting | update_results.py:81-129 | `count + skipped` plus the raised inserts equals the number of events; `count + skipped` is at most that number, with equality when no insert raises |
| Batch.BatchRerunAddsNothing | update_results.py:113-121 | re-running a batch on its own result adds no row and reports the same `count` and `skipped` |
| Batch.HandleEvent | update_results.py:84-129 | the loop body, with its early `continue`s, scan and guarded insert, has exactly the effect of one fold step |
| Batch.MatchAndInsertResults | update_results.py:75-134 | the loop over the feed events computes the same table and tallies as the fold |
| Driver.Days | update_results.py:140-146 | the days visited are first, first+1, ..., last, and none when first is after last |
| Driver.FailedRequestIsEmptyBatch | update_results.py:66-73 | a day whose request failed leaves the table alone and counts and skips nothing |
| Driver.RunRange | update_results.py:139-146 | one log entry per visited day, in increasing order; no day and no change when first is after last; the table only grows and keeps one row per key |
| Driver.RangeLogIsPerDay | update_results.py:143-145 | each day's reported tallies are those of that day's events against the same local events, whatever the table held |
| Driver.RangeKeysStored | update_results.py:139-146 | after a run the table's keys are the old keys plus every key an executed statement carried |
| Driver.RangeUnchangedWhenKeysPresent | update_results.py:139-146 | a run whose every key is already stored leaves the table unchanged |
| Driver.BatchUnchangedWhenKeysPresent | update_results.py:76-80 | a batch whose every key is already stored leaves the table unchanged |
| Driver.RangeLogIndependentOfStore | update_results.py:139-146 | the day-by-day tallies do not depend on the table the run starts from |
| Driver.RangeRerunAddsNothing | update_results.py:139-146 | re-running a date range on its own result adds no row and reports the same tallies day by day |
| Driver.RunFromIsRunRange | update_results.py:140-146 | running from a day with a log already written appends the remaining days' log to it and ends with the same table |
| Driver.Update | update_results.py:136-146 | the `while` loop over dates gives the same table and log as the recursive definition |
| Reader.ReadRow | update_results.py:49-54 | a read row keeps its key and start, and both names are the feed-side normalisation of the stored ones, in normal form |
| Reader.ReadLocalEvents | update_results.py:48-55 | the intended reader keeps every row in order with its key and start, and normalises both names as the feed side does |
| Reader.NothingAttempted | update_results.py:127-129 | when no insert is attempted, nothing executes, no key is written and every event is skipped |
| Reader.AsWrittenBatchMatchesNothing | update_results.py:41-58 | with the reader as written, every batch leaves the table unchanged, counts zero and skips every event |
| Reader.AsWrittenRunWritesNothing | update_results.py:139-146 | with the reader as written, a whole date range leaves the table unchanged |
| Reader.AsWrittenLogSkipsEverything | update_results.py:139-145 | with the reader as written, every day reports zero inserted and all of that day's feed events skipped |
| Reader.UpdateAsWritten | update_results.py:136-146 | `update` as written reads the local events once before the date loop, runs the range, and returns the table unchanged |
| Reader.UpdateFromRows | update_results.py:136-146 | `update` with the intended reader reads the local events once, runs every day from first to last against them, and only adds rows |
| Scenarios.FinishedMatchIsRecorded | update_results.py:100-121 | a finished 2-1 match fed as " ARSENAL\t" five minutes after the local kickoff of "Arsenal" writes one row with the local key and the feed's raw names; count 1, skipped 0 |
| Scenarios.InProgressIsSkipped | update_results.py:85-89 | an event in play writes nothing; skipped 1 |
| Scenarios.TextTournamentId | update_results.py:90 | a tournament id given as the text "384" passes against 384, and "0384" does not |
| Scenarios.FirstListedWins | update_results.py:105-126 | with two local records of the fixture in the window, the first listed is used although the second is nearer |
| Scenarios.FifteenDaysApartIsUnmatched | update_results.py:110 | a local record 15 days earlier is outside the window; skipped 1 |
| Scenarios.SuffixedNameIsUnmatched | update_results.py:107-109 | "Arsenal FC" locally does not match "Arsenal" in the feed; skipped 1 |
| Scenarios.RerunOfFinishedMatch | update_results.py:76-80 | re-running the first scenario keeps the table and still counts 1 |
| Scenarios.AsWrittenFinishedMatchIsSkipped | update_results.py:41-58 | with the reader as written, the first scenario writes nothing and skips its event |

## Left out

- Database plumbing (connect, close, cursor, commit) is not modelled. The table is a set of rows.
- The commit, and any failure of it, is not modelled. The model's table is what the batch's statements leave.
- PostgreSQL's aborted-transaction state is not modelled. After a failing insert, later statements of the batch fail too and the commit rolls back. The per-event failure oracle can express that pattern but does not force it.
- The uniqueness constraint of `results` is not in the source. The conflict key is taken to be `event_id`.
- HTTP is not modelled (`requests.get`, `raise_for_status`, JSON decoding). A failed request or a missing `events` field is the empty list.
- The odds query itself is not modelled: the cutoff of three hours before now, `DISTINCT`, and the row order the database returns. Its rows are an input.
- Logging, environment variables and the `__main__` configuration are not modelled. The tracked id 384 appears in the scenarios.
- Driver.Update: `strftime` date strings are not modelled. Days are day numbers, and the feed is indexed by them.
- Events.ApiWallClock: the model applies a fixed host UTC offset where `datetime.fromtimestamp` uses the host's time-zone rules for each timestamp. Daylight-saving changes are not modelled, and a single day's feed can straddle one.
- Names.Lower: Unicode case mapping beyond ASCII is not modelled.
- Names.IsSpace: Unicode whitespace beyond ASCII is not modelled.
- Exceptions that escape a batch are not modelled. `update` has only `try/finally` (update_results.py:138-148), so such an exception ends the whole run: the remaining days are never fetched, and the current batch's inserts are lost because the connection closes without a commit. The model has no failing batch. Only some events reach the lines that can raise: lines 94-95 run only for a finished event of the tracked tournament, and lines 100-102 only for an event that passed all three checks. Every other event is skipped earlier by the `continue`s at update_results.py:89, 93 and 99, as in the model. The cases below are either values the model cannot represent or, for the two date-range ones, inputs it accepts and answers where the source raises.
- Names.FeedName: on an event that passed all three checks, a team name or team object that is present but JSON null makes `.strip()` or `.get` raise `AttributeError` out of the batch (update_results.py:100-101). The model reads a feed name as a string or absent.
- Events.ApiEvent: on an event that passed all three checks, a missing or null `startTimestamp` makes `fromtimestamp` raise `TypeError` (update_results.py:102). On any event, a null `status` object makes `.get` raise (update_results.py:85). The model always has an integer timestamp and an optional status type.
- Events.ApiEvent: a `tournament` object that is JSON null on a finished event (update_results.py:90), or a `homeScore` or `awayScore` object that is JSON null on a finished event of the tracked tournament (update_results.py:94-95), makes `.get` raise `AttributeError` out of the batch. The model has only the inner values: the id as a scalar and each score as an optional integer.
- Events.ApiEvent: on an event that passed all three checks, an integer `startTimestamp` outside the range `datetime` can represent (years 1 to 9999), such as the millisecond timestamp 1762009200000, makes `datetime.fromtimestamp` raise `ValueError` or `OverflowError` at update_results.py:102, ending the run as above. The model gives every integer timestamp a day and goes on to match the event (that one, against a local event in the present, is skipped as unmatched).
- Driver.Days: with `end_date` equal to `date.max`, `cur_date += timedelta(days=1)` raises `OverflowError` at update_results.py:146 after the last batch has committed, so `update` ends with an exception instead of returning. The model's days are unbounded integers, so the range simply ends.
- Driver.EventsFor: a response whose `events` field is JSON null makes `.get("events", [])` return `None` (update_results.py:70), and `len(None)` then raises `TypeError` (update_results.py:144) outside any handler. The model reads every response as a list of events or a failed request.
- PyValues.Scalar: JSON floats, objects and arrays are not modelled. A feed id of `384.0`, say, has `str` "384.0" and fails the tournament check at update_results.py:90, as any text other than "384" does in the model.
- Events.ApiEvent: scores are modelled as integers or null, and the status type as a string or null. Any other non-null JSON value is passed through unchanged by the source and is not modelled.

## Findings

| source | as written | input that shows it | evidently intended | confidence | as-written member | corrected member |
|---|---|---|---|---|---|---|
| update_results.py:7, 41, 56-58 | `timezone` is used but never imported. Every call of `fetch_pinnacle_events` raises `NameError`, which its own handler catches, so it returns `[]`. | any `odds1x2` contents, e.g. one row (1001, "Arsenal", "Chelsea", 2025-11-01 15:00) with a matching finished feed event | the rows, projected and normalised, so that finished matches are written | high (not executed) | Reader.ReadLocalEventsAsWritten, with Reader.AsWrittenBatchMatchesNothing and Scenarios.AsWrittenFinishedMatchIsSkipped | Reader.ReadLocalEvents, with Scenarios.FinishedMatchIsRecorded |

=== FILE: batch.dfy ===
/** One batch of the reconciliation engine: every feed event of one day
    is filtered, matched against the local events and, when matched,
    written as a result row. The batch is a left fold of per-event
    outcomes into the table and the two tallies `count` and `skipped`. */
module Batch {
  import opened Options
  import opened Names
  import opened PyValues
  import opened Events
  import opened Store
  import opened Filter
  import opened Matcher

  /** What became of one feed event: stopped by the filter, eligible but
      unmatched, matched and inserted (the statement executed, whether or
      not it added a row), or matched with the insert statement raising. */
  datatype Outcome = Filtered(verdict: Screening) | Unmatched | Executed(row: ResultRow) | Raised(row: ResultRow)

  /** The event led to an insert statement. */
  predicate Attempted(o: Outcome) {
    o.Executed? || o.Raised?
  }

  /** The state the batch threads through its events. */
  datatype Tally = Tally(store: Results, count: nat, skipped: nat)

  /** Whether the insert for the `i`-th feed event raises. The database's
      failures are not modelled; this oracle stands for them, and an index
      it does not cover is an insert that succeeds. */
  function FaultAt(faults: seq<bool>, i: int): bool {
    0 <= i < |faults| && faults[i]
  }

  /** The row written for feed event `e` matched to local event `l`. */
  function BuildRow(cfg: Config, l: LocalEvent, e: ApiEvent, homeScore: int, awayScore: int): ResultRow {
    ResultRow(l.eventId, e.homeName, e.awayName, ApiWallClock(cfg, e), homeScore, awayScore)
  }

  /** The fate of one feed event. */
  function Classify(cfg: Config, locals: seq<LocalEvent>, e: ApiEvent, raises: bool): (o: Outcome)
    ensures o.Filtered? <==> !IsEligible(cfg, e)
    ensures o.Filtered? ==> o.verdict == Screen(cfg, e)
    ensures o.Unmatched? <==> IsEligible(cfg, e) && FirstMatch(ProbeOf(cfg, e), locals).None?
    ensures Attempted(o) <==> IsEligible(cfg, e) && FirstMatch(ProbeOf(cfg, e), locals).Some?
    ensures o.Raised? ==> raises
    ensures o.Executed? ==> !raises
  {
    match Screen(cfg, e)
    case Eligible(h, a) =>
      var probe := ProbeOf(cfg, e);
      (match FirstMatch(probe, locals)
       case None => Unmatched
       case Some(i) =>
         var row := BuildRow(cfg, locals[i], e, h, a);
         if raises then Raised(row) else Executed(row))
    case v => Filtered(v)
  }

  /** The effect of one outcome on the table and the tallies. */
  function Step(t: Tally, o: Outcome): Tally {
    match o
    case Filtered(_) => t.(skipped := t.skipped + 1)
    case Unmatched => t.(skipped := t.skipped + 1)
    case Executed(row) => Tally(Insert(t.store, row), t.count + 1, t.skipped)
    case Raised(_) => t
  }

  function NumExecuted(outs: seq<Outcome>): nat {
    if outs == [] then 0 else (if outs[0].Executed? then 1 else 0) + NumExecuted(outs[1..])
  }

  function NumSkipped(outs: seq<Outcome>): nat {
    if outs == [] then 0 else (if outs[0].Filtered? || outs[0].Unmatched? then 1 else 0) + NumSkipped(outs[1..])
  }

  function NumRaised(outs: seq<Outcome>): nat {
    if outs == [] then 0 else (if outs[0].Raised? then 1 else 0) + NumRaised(outs[1..])
  }

  /** The rows of the statements that executed. */
  function ExecutedRows(outs: seq<Outcome>): set<ResultRow> {
    if outs == [] then {}
    else (if outs[0].Executed? then {outs[0].row} else {}) + ExecutedRows(outs[1..])
  }

  /** The keys of the statements that executed. */
  function ExecutedKeys(outs: seq<Outcome>): set<int> {
    if outs == [] then {}
    else (if outs[0].Executed? then {outs[0].row.eventId} else {}) + ExecutedKeys(outs[1..])
  }

  /** Threads the outcomes, in order, through the table and the tallies. */
  function Apply(t: Tally, outs: seq<Outcome>): (r: Tally)
    ensures r.count == t.count + NumExecuted(outs)
    ensures r.skipped == t.skipped + NumSkipped(outs)
    ensures t.store <= r.store <= t.store + ExecutedRows(outs)
    ensures Keys(r.store) == Keys(t.store) + ExecutedKeys(outs)
    ensures KeyUnique(t.store) ==> KeyUnique(r.store)
    ensures ExecutedKeys(outs) <= Keys(t.store) ==> r.store == t.store
    decreases |outs|
  {
    if outs == [] then t
    else
      var rest := outs[1..];
      Apply(Step(t, outs[0]), rest)
  }

  /** The outcomes of a batch, one per feed event, in feed order. */
  function Outcomes(cfg: Config, locals: seq<LocalEvent>, events: seq<ApiEvent>, faults: seq<bool>): seq<Outcome> {
    seq(|events|, i requires 0 <= i < |events| => Classify(cfg, locals, events[i], FaultAt(faults, i)))
  }

  /** `match_and_insert_results`: one batch of feed events against the
      local events, starting from table `store` with both tallies at zero. */
  function ProcessBatch(cfg: Config, locals: seq<LocalEvent>, events: seq<ApiEvent>, faults: seq<bool>, store: Results): (r: Tally)
    ensures r.count == NumExecuted(Outcomes(cfg, locals, events, faults))
    ensures r.skipped == NumSkipped(Outcomes(cfg, locals, events, faults))
    ensures store <= r.store
    ensures Keys(r.store) == Keys(store) + ExecutedKeys(Outcomes(cfg, locals, events, faults))
    ensures KeyUnique(store) ==> KeyUnique(r.store)
  {
    Apply(Tally(store, 0, 0), Outcomes(cfg, locals, events, faults))
  }

  // ---------------------------------------------------------------------
  // Properties of a batch

  /** The row built for a local event the feed event matches carries that
      local event's key, feed names that normalise back to the local names,
      a start date inside the window, and the scores given. */
  lemma BuildRowAgreesWithMatch(cfg: Config, l: LocalEvent, e: ApiEvent, homeScore: int, awayScore: int)
    requires Matches(ProbeOf(cfg, e), l)
    ensures
      var r := BuildRow(cfg, l, e, homeScore, awayScore);
      && r.eventId == l.eventId
      && FeedName(r.homeTeam) == l.homeTeam && FeedName(r.awayTeam) == l.awayTeam
      && Abs(DayOf(r.starts) - DayOf(l.starts)) <= ToleranceDays
      && r.homeScore == homeScore && r.awayScore == awayScore
  {
  }

  /** One event moves exactly one tally by one, unless its insert raised,
      which leaves table and tallies alone; only an executed insert can
      touch the table, and then only under its own key. */
  lemma StepEffect(t: Tally, o: Outcome)
    ensures (Step(t, o).count - t.count) + (Step(t, o).skipped - t.skipped) == if o.Raised? then 0 else 1
    ensures t.count <= Step(t, o).count && t.skipped <= Step(t, o).skipped
    ensures Step(t, o).count == t.count + 1 <==> o.Executed?
    ensures o.Raised? ==> Step(t, o) == t
    ensures !o.Executed? ==> Step(t, o).store == t.store
    ensures o.Executed? ==> t.store <= Step(t, o).store <= t.store + {o.row}
    ensures o.Executed? ==> Keys(Step(t, o).store) == Keys(t.store) + {o.row.eventId}
  {
  }

  /** The row of a matched event: the key of the first matching local
      event, the feed's own names (which normalise to the local event's),
      the feed's start time, within the window of the local one, and the
      regulation-time scores. */
  lemma AttemptedRow(cfg: Config, locals: seq<LocalEvent>, e: ApiEvent, raises: bool)
    requires Attempted(Classify(cfg, locals, e, raises))
    ensures
      var o := Classify(cfg, locals, e, raises);
      var i := FirstMatch(ProbeOf(cfg, e), locals).value;
      // the key comes from the first matching local event ...
      && o.row.eventId == locals[i].eventId
      // ... the names are the feed's own, not their normal forms ...
      && o.row.homeTeam == e.homeName
      && o.row.awayTeam == e.awayName
      && FeedName(o.row.homeTeam) == locals[i].homeTeam
      && FeedName(o.row.awayTeam) == locals[i].awayTeam
      // ... the start is the feed's, within the window of the local one ...
      && o.row.starts == ApiWallClock(cfg, e)
      && Matches(ProbeOf(cfg, e), locals[i])
      // ... and the scores are the regulation-time scores
      && e.homeScore == Some(o.row.homeScore)
      && e.awayScore == Some(o.row.awayScore)
  {
  }

  /** A feed event the filter stops, or one nothing matches, adds one to
      `skipped` and touches nothing else; a matched event never adds to
      `skipped`. */
  lemma SkipEffect(cfg: Config, locals: seq<LocalEvent>, e: ApiEvent, raises: bool, t: Tally)
    ensures !IsEligible(cfg, e) ==> Step(t, Classify(cfg, locals, e, raises)) == t.(skipped := t.skipped + 1)
    ensures FirstMatch(ProbeOf(cfg, e), locals).None? ==>
      Step(t, Classify(cfg, locals, e, raises)) == t.(skipped := t.skipped + 1)
    ensures Attempted(Classify(cfg, locals, e, raises)) ==>
      Step(t, Classify(cfg, locals, e, raises)).skipped == t.skipped
  {
    var o := Classify(cfg, locals, e, raises);
    if !IsEligible(cfg, e) || FirstMatch(ProbeOf(cfg, e), locals).None? {
      assert o.Filtered? || o.Unmatched?;
    } else {
      assert Attempted(o);
    }
  }

  /** Every feed event has exactly one of four fates. */
  lemma {:induction false} OutcomesPartition(outs: seq<Outcome>)
    ensures NumExecuted(outs) + NumSkipped(outs) + NumRaised(outs) == |outs|
  {
    if outs != [] {
      OutcomesPartition(outs[1..]);
    }
  }

  lemma {:induction false} NoneRaised(outs: seq<Outcome>)
    requires forall k :: 0 <= k < |outs| ==> !outs[k].Raised?
    ensures NumRaised(outs) == 0
  {
    if outs != [] {
      assert forall k :: 0 <= k < |outs[1..]| ==> outs[1..][k] == outs[k + 1];
      NoneRaised(outs[1..]);
    }
  }

  /** The tallies account for the batch: every feed event is counted at
      most once, in `count` or in `skipped`, and only an event whose insert
      raised is in neither. With no failing insert, the two add up to the
      number of feed events. */
  lemma BatchAccounting(cfg: Config, locals: seq<LocalEvent>, events: seq<ApiEvent>, faults: seq<bool>, store: Results)
    ensures
      var r := ProcessBatch(cfg, locals, events, faults, store);
      r.count + r.skipped + NumRaised(Outcomes(cfg, locals, events, faults)) == |events|
    ensures
      var r := ProcessBatch(cfg, locals, events, faults, store);
      r.count + r.skipped <= |events|
    ensures
      (forall k :: 0 <= k < |faults| ==> !faults[k]) ==>
      var r := ProcessBatch(cfg, locals, events, faults, store);
      r.count + r.skipped == |events|
  {
    var outs := Outcomes(cfg, locals, events, faults);
    OutcomesPartition(outs);
    if forall k :: 0 <= k < |faults| ==> !faults[k] {
      NoneRaised(outs);
    }
  }

  /** Running the same batch again changes nothing in the table, and the
      tallies come out the same: `count` counts executed statements, so a
      re-run that adds no row still reports the same count. */
  lemma BatchRerunAddsNothing(cfg: Config, locals: seq<LocalEvent>, events: seq<ApiEvent>, faults: seq<bool>, store: Results)
    ensures
      var first := ProcessBatch(cfg, locals, events, faults, store);
      var second := ProcessBatch(cfg, locals, events, faults, first.store);
      second.store == first.store && second.count == first.count && second.skipped == first.skipped
  {
    var outs := Outcomes(cfg, locals, events, faults);
    var first := ProcessBatch(cfg, locals, events, faults, store);
    assert ExecutedKeys(outs) <= Keys(first.store);
  }

  // ---------------------------------------------------------------------
  // The batch as the engine runs it

  /** The loop body for one feed event: the three filter checks in order
      (each a `continue` after `skipped += 1`), the scan that stops at the
      first match, the insert guarded by the failure oracle with
      `count += 1` only when the statement executed, and `skipped += 1`
      when nothing matched. */
  method HandleEvent(cfg: Config, locals: seq<LocalEvent>, e: ApiEvent, raises: bool, table: Results, count: nat, skipped: nat)
    returns (table': Results, count': nat, skipped': nat)
    ensures Tally(table', count', skipped') == Step(Tally(table, count, skipped), Classify(cfg, locals, e, raises))
  {
    table', count', skipped' := table, count, skipped;
    ghost var o := Classify(cfg, locals, e, raises);
    if e.statusType != Some("finished") {
      assert o == Filtered(NotFinished);
      skipped' := skipped + 1;
      return;
    }
    if Str(e.tournamentId) != Str(cfg.tournamentId) {
      assert o == Filtered(OtherTournament);
      skipped' := skipped + 1;
      return;
    }
    if e.homeScore.None? || e.awayScore.None? {
      assert o == Filtered(MissingScore);
      skipped' := skipped + 1;
      return;
    }
    var h, a := e.homeScore.value, e.awayScore.value;
    assert Screen(cfg, e) == Eligible(h, a);
    var probe := ProbeOf(cfg, e);
    var found := ScanLocals(probe, locals);
    if found.Some? {
      var row := BuildRow(cfg, locals[found.value], e, h, a);
      if !raises {
        assert o == Executed(row);
        table' := Insert(table, row);
        count' := count + 1;
      } else {
        assert o == Raised(row);
      }
    } else {
      assert o == Unmatched;
      skipped' := skipped + 1;
    }
  }

  lemma ApplyUnfold(t: Tally, outs: seq<Outcome>, i: nat)
    requires i < |outs|
    ensures Apply(t, outs[i..]) == Apply(Step(t, outs[i]), outs[i + 1..])
  {
    assert outs[i..][0] == outs[i] && outs[i..][1..] == outs[i + 1..];
  }

  /** `match_and_insert_results` as a loop over the feed events. */
  method MatchAndInsertResults(cfg: Config, locals: seq<LocalEvent>, events: seq<ApiEvent>, faults: seq<bool>, store: Results)
    returns (table: Results, count: nat, skipped: nat)
    ensures Tally(table, count, skipped) == ProcessBatch(cfg, locals, events, faults, store)
  {
    ghost var outs := Outcomes(cfg, locals, events, faults);
    table, count, skipped := store, 0, 0;
    var i := 0;
    while i < |events|
      invariant 0 <= i <= |events|
      invariant Apply(Tally(table, count, skipped), outs[i..]) == Apply(Tally(store, 0, 0), outs)
    {
      ApplyUnfold(Tally(table, count, skipped), outs, i);
      table, count, skipped := HandleEvent(cfg, locals, events[i], FaultAt(faults, i), table, count, skipped);
      i := i + 1;
    }
  }
}

=== FILE: driver.dfy ===
/** The date-range driver: one batch per calendar day from the first day
    to the last, inclusive, all against the same local events. */
module Driver {
  import opened Options
  import opened Events
  import opened Store
  import opened Batch

  /** The days visited, in order. */
  function Days(first: int, last: int): (r: seq<int>)
    ensures |r| == if first <= last then last - first + 1 else 0
    ensures forall k :: 0 <= k < |r| ==> r[k] == first + k
    decreases last - first
  {
    if first > last then [] else [first] + Days(first + 1, last)
  }

  /** What one day's batch reported. */
  datatype DayLog = DayLog(day: int, count: nat, skipped: nat)

  datatype RangeRun = RangeRun(store: Results, log: seq<DayLog>)

  /** The days a log reports on, in order. */
  function LogDays(log: seq<DayLog>): (r: seq<int>)
    ensures |r| == |log|
    ensures forall k :: 0 <= k < |log| ==> r[k] == log[k].day
  {
    if log == [] then [] else [log[0].day] + LogDays(log[1..])
  }

  /** The feed's events for `day`. A failed request (network error,
      non-success status, undecodable body) is `None` and is read as an
      empty list, as is a response without an `events` field. */
  function EventsFor(feed: int -> Option<seq<ApiEvent>>, day: int): seq<ApiEvent> {
    feed(day).GetOr([])
  }

  /** A day whose request failed is a batch of no events: the table is
      left as it was, and nothing is counted or skipped. */
  lemma FailedRequestIsEmptyBatch(cfg: Config, locals: seq<LocalEvent>, feed: int -> Option<seq<ApiEvent>>, faults: int -> seq<bool>, day: int, store: Results)
    requires feed(day).None?
    ensures ProcessBatch(cfg, locals, EventsFor(feed, day), faults(day), store) == Tally(store, 0, 0)
  {
  }

  /** The outcomes of one day's batch. */
  function DayOutcomes(cfg: Config, locals: seq<LocalEvent>, feed: int -> Option<seq<ApiEvent>>, faults: int -> seq<bool>, day: int): seq<Outcome> {
    Outcomes(cfg, locals, EventsFor(feed, day), faults(day))
  }

  /** The keys the statements that executed on days `first`..`last` carry. */
  function RangeKeys(cfg: Config, locals: seq<LocalEvent>, feed: int -> Option<seq<ApiEvent>>, faults: int -> seq<bool>, first: int, last: int): set<int>
    decreases last - first
  {
    if first > last then {}
    else ExecutedKeys(DayOutcomes(cfg, locals, feed, faults, first)) + RangeKeys(cfg, locals, feed, faults, first + 1, last)
  }

  /** `update`: the batches for days `first` to `last`, in order, each
      against the same `locals` and each starting from the table the
      previous one left. */
  function RunRange(cfg: Config, locals: seq<LocalEvent>, feed: int -> Option<seq<ApiEvent>>, faults: int -> seq<bool>, first: int, last: int, store: Results): (r: RangeRun)
    ensures LogDays(r.log) == Days(first, last)
    ensures first > last ==> r == RangeRun(store, [])
    ensures store <= r.store
    ensures KeyUnique(store) ==> KeyUnique(r.store)
    decreases last - first
  {
    if first > last then RangeRun(store, [])
    else
      var b := ProcessBatch(cfg, locals, EventsFor(feed, first), faults(first), store);
      var rest := RunRange(cfg, locals, feed, faults, first + 1, last, b.store);
      var log := [DayLog(first, b.count, b.skipped)] + rest.log;
      assert log[1..] == rest.log;
      RangeRun(rest.store, log)
  }

  /** Each entry of the log holds the tallies of the batch for the day it
      reports on, run against the same local events; the tallies do not
      depend on the table the batch started from. */
  lemma {:induction false} RangeLogIsPerDay(cfg: Config, locals: seq<LocalEvent>, feed: int -> Option<seq<ApiEvent>>, faults: int -> seq<bool>, first: int, last: int, store: Results, k: nat)
    requires k < |RunRange(cfg, locals, feed, faults, first, last, store).log|
    ensures
      var entry := RunRange(cfg, locals, feed, faults, first, last, store).log[k];
      entry.count == NumExecuted(DayOutcomes(cfg, locals, feed, faults, entry.day)) &&
      entry.skipped == NumSkipped(DayOutcomes(cfg, locals, feed, faults, entry.day))
    decreases last - first
  {
    var r := RunRange(cfg, locals, feed, faults, first, last, store);
    assert first <= last;
    var b := ProcessBatch(cfg, locals, EventsFor(feed, first), faults(first), store);
    var rest := RunRange(cfg, locals, feed, faults, first + 1, last, b.store);
    assert r.log == [DayLog(first, b.count, b.skipped)] + rest.log;
    if k > 0 {
      assert r.log[k] == rest.log[k - 1];
      RangeLogIsPerDay(cfg, locals, feed, faults, first + 1, last, b.store, k - 1);
    }
  }

  /** After a run, every key a statement wrote during it is in the table. */
  lemma {:induction false} RangeKeysStored(cfg: Config, locals: seq<LocalEvent>, feed: int -> Option<seq<ApiEvent>>, faults: int -> seq<bool>, first: int, last: int, store: Results)
    ensures Keys(RunRange(cfg, locals, feed, faults, first, last, store).store) == Keys(store) + RangeKeys(cfg, locals, feed, faults, first, last)
    decreases last - first
  {
    if first <= last {
      var b := ProcessBatch(cfg, locals, EventsFor(feed, first), faults(first), store);
      RangeKeysStored(cfg, locals, feed, faults, first + 1, last, b.store);
    }
  }

  /** A range whose every key is already stored leaves the table alone. */
  lemma {:induction false} RangeUnchangedWhenKeysPresent(cfg: Config, locals: seq<LocalEvent>, feed: int -> Option<seq<ApiEvent>>, faults: int -> seq<bool>, first: int, last: int, store: Results)
    requires RangeKeys(cfg, locals, feed, faults, first, last) <= Keys(store)
    ensures RunRange(cfg, locals, feed, faults, first, last, store).store == store
    decreases last - first
  {
    if first <= last {
      var b := ProcessBatch(cfg, locals, EventsFor(feed, first), faults(first), store);
      BatchUnchangedWhenKeysPresent(cfg, locals, EventsFor(feed, first), faults(first), store);
      RangeUnchangedWhenKeysPresent(cfg, locals, feed, faults, first + 1, last, b.store);
    }
  }

  lemma BatchUnchangedWhenKeysPresent(cfg: Config, locals: seq<LocalEvent>, events: seq<ApiEvent>, faults: seq<bool>, store: Results)
    requires ExecutedKeys(Outcomes(cfg, locals, events, faults)) <= Keys(store)
    ensures ProcessBatch(cfg, locals, events, faults, store).store == store
  {
  }

  /** The log of a run does not depend on the table it starts from. */
  lemma {:induction false} RangeLogIndependentOfStore(cfg: Config, locals: seq<LocalEvent>, feed: int -> Option<seq<ApiEvent>>, faults: int -> seq<bool>, first: int, last: int, s1: Results, s2: Results)
    ensures RunRange(cfg, locals, feed, faults, first, last, s1).log == RunRange(cfg, locals, feed, faults, first, last, s2).log
    decreases last - first
  {
    if first <= last {
      var b1 := ProcessBatch(cfg, locals, EventsFor(feed, first), faults(first), s1);
      var b2 := ProcessBatch(cfg, locals, EventsFor(feed, first), faults(first), s2);
      RangeLogIndependentOfStore(cfg, locals, feed, faults, first + 1, last, b1.store, b2.store);
    }
  }

  /** Re-running the same date range adds no row, since every key the
      first run wrote is already present for the second, and reports the
      same tallies day by day. */
  lemma RangeRerunAddsNothing(cfg: Config, locals: seq<LocalEvent>, feed: int -> Option<seq<ApiEvent>>, faults: int -> seq<bool>, first: int, last: int, store: Results)
    ensures
      var once := RunRange(cfg, locals, feed, faults, first, last, store);
      var twice := RunRange(cfg, locals, feed, faults, first, last, once.store);
      twice.store == once.store && twice.log == once.log
  {
    var once := RunRange(cfg, locals, feed, faults, first, last, store);
    RangeKeysStored(cfg, locals, feed, faults, first, last, store);
    RangeUnchangedWhenKeysPresent(cfg, locals, feed, faults, first, last, once.store);
    RangeLogIndependentOfStore(cfg, locals, feed, faults, first, last, store, once.store);
  }

  /** The run as the engine performs it: the log grows at the end, one
      entry per day, and the table is threaded forward. */
  function RunFrom(cfg: Config, locals: seq<LocalEvent>, feed: int -> Option<seq<ApiEvent>>, faults: int -> seq<bool>, day: int, last: int, table: Results, log: seq<DayLog>): RangeRun
    decreases last - day
  {
    if day > last then RangeRun(table, log)
    else
      var b := ProcessBatch(cfg, locals, EventsFor(feed, day), faults(day), table);
      RunFrom(cfg, locals, feed, faults, day + 1, last, b.store, log + [DayLog(day, b.count, b.skipped)])
  }

  lemma AppendAssoc(a: seq<DayLog>, b: seq<DayLog>, c: seq<DayLog>)
    ensures a + (b + c) == (a + b) + c
  {
  }

  /** Performing the run with a log already written appends the run's own
      log to it. */
  lemma {:induction false} RunFromIsRunRange(cfg: Config, locals: seq<LocalEvent>, feed: int -> Option<seq<ApiEvent>>, faults: int -> seq<bool>, day: int, last: int, table: Results, log: seq<DayLog>)
    ensures
      var r := RunRange(cfg, locals, feed, faults, day, last, table);
      RunFrom(cfg, locals, feed, faults, day, last, table, log) == RangeRun(r.store, log + r.log)
    decreases last - day
  {
    if day > last {
      assert log + [] == log;
    } else {
      var b := ProcessBatch(cfg, locals, EventsFor(feed, day), faults(day), table);
      var entry := DayLog(day, b.count, b.skipped);
      var rest := RunRange(cfg, locals, feed, faults, day + 1, last, b.store);
      assert RunRange(cfg, locals, feed, faults, day, last, table) == RangeRun(rest.store, [entry] + rest.log);
      assert RunFrom(cfg, locals, feed, faults, day, last, table, log)
          == RunFrom(cfg, locals, feed, faults, day + 1, last, b.store, log + [entry]);
      RunFromIsRunRange(cfg, locals, feed, faults, day + 1, last, b.store, log + [entry]);
      AppendAssoc(log, [entry], rest.log);
    }
  }

  /** The engine's `while cur_date <= end_date` loop, one day per step,
      with the local events read once before it. */
  method Update(cfg: Config, locals: seq<LocalEvent>, feed: int -> Option<seq<ApiEvent>>, faults: int -> seq<bool>, first: int, last: int, store: Results)
    returns (table: Results, log: seq<DayLog>)
    ensures RangeRun(table, log) == RunRange(cfg, locals, feed, faults, first, last, store)
  {
    table, log := store, [];
    var day := first;
    while day <= last
      invariant first <= last ==> first <= day <= last + 1
      invariant first > last ==> day == first
      invariant RunFrom(cfg, locals, feed, faults, day, last, table, log) == RunFrom(cfg, locals, feed, faults, first, last, store, [])
      decreases last - day
    {
      var dayTable, count, skipped := MatchAndInsertResults(cfg, locals, EventsFor(feed, day), faults(day), table);
      assert RunFrom(cfg, locals, feed, faults, day, last, table, log)
          == RunFrom(cfg, locals, feed, faults, day + 1, last, dayTable, log + [DayLog(day, count, skipped)]);
      log := log + [DayLog(day, count, skipped)];
      table := dayTable;
      day := day + 1;
    }
    RunFromIsRunRange(cfg, locals, feed, faults, first, last, store, []);
    assert [] + RunRange(cfg, locals, feed, faults, first, last, store).log == RunRange(cfg, locals, feed, faults, first, last, store).log;
  }
}

=== FILE: events.dfy ===
/** The records the reconciliation engine works on. Instants are whole
    seconds; a calendar date is a day number (days since 1970-01-01). */
module Events {
  import opened Options
  import opened PyValues

  const SecondsPerDay: int := 86400

  /** The engine's configuration: the tracked tournament id (compared
      through `str()`, so its Python type is kept) and the UTC offset, in
      seconds, of the host that runs the engine, which
      `datetime.fromtimestamp` applies to feed timestamps. */
  datatype Config = Config(tournamentId: Scalar, hostUtcOffset: int)

  /** One row of `SELECT DISTINCT event_id, home_team, away_team, starts`;
      a team name may be NULL. `starts` is the wall-clock reading of the
      stored start time, as seconds. */
  datatype LocalRow = LocalRow(eventId: int, homeTeam: Option<string>, awayTeam: Option<string>, starts: int)

  /** A local ("Pinnacle") event after reading: team names normalised. */
  datatype LocalEvent = LocalEvent(eventId: int, homeTeam: string, awayTeam: string, starts: int)

  /** The fields of one feed event the engine reads:
      `status.type`, `tournament.id`, `homeTeam.name`, `awayTeam.name`,
      `homeScore.normaltime`, `awayScore.normaltime`, `startTimestamp`.
      For the status type, the tournament id and the scores, `None` (or
      `Null`) stands for an absent key or JSON null; for the two team
      names it stands only for an absent key, since a null name is not
      modelled. */
  datatype ApiEvent = ApiEvent(
    statusType: Option<string>,
    tournamentId: Scalar,
    homeName: Option<string>,
    awayName: Option<string>,
    homeScore: Option<int>,
    awayScore: Option<int>,
    startTimestamp: int)

  /** A row of the `results` table:
      (event_id, home_team, away_team, starts, home_score, away_score). */
  datatype ResultRow = ResultRow(
    eventId: int,
    homeTeam: Option<string>,
    awayTeam: Option<string>,
    starts: int,
    homeScore: int,
    awayScore: int)

  /** The calendar date of a wall-clock reading (`.date()`); floor division,
      so instants before 1970 fall on the right day too. */
  function DayOf(wallSeconds: int): (r: int)
    ensures r * SecondsPerDay <= wallSeconds < r * SecondsPerDay + SecondsPerDay
  {
    wallSeconds / SecondsPerDay
  }

  /** A day number names exactly the 86400 seconds from its midnight on,
      negative readings included. */
  lemma DayOfBounds(wallSeconds: int, day: int)
    ensures DayOf(wallSeconds) == day <==>
      day * SecondsPerDay <= wallSeconds < day * SecondsPerDay + SecondsPerDay
  {
  }

  /** `datetime.fromtimestamp(startTimestamp)`: the feed's instant read on
      the host's clock. */
  function ApiWallClock(cfg: Config, e: ApiEvent): int {
    e.startTimestamp + cfg.hostUtcOffset
  }

  /** Reading the feed's instant on the host's clock moves its calendar
      date by at most one day, forward for a host east of UTC and backward
      for one west of it (any real UTC offset is under a day). */
  lemma HostOffsetShiftsDay(cfg: Config, e: ApiEvent)
    requires -SecondsPerDay < cfg.hostUtcOffset < SecondsPerDay
    ensures cfg.hostUtcOffset >= 0 ==> 0 <= DayOf(ApiWallClock(cfg, e)) - DayOf(e.startTimestamp) <= 1
    ensures cfg.hostUtcOffset <= 0 ==> -1 <= DayOf(ApiWallClock(cfg, e)) - DayOf(e.startTimestamp) <= 0
    ensures cfg.hostUtcOffset == 0 ==> DayOf(ApiWallClock(cfg, e)) == DayOf(e.startTimestamp)
  {
  }
}

=== FILE: filter.dfy ===
/** The eligibility filter: the three checks a feed event must pass, in
    the order the engine makes them. */
module Filter {
  import opened Options
  import opened PyValues
  import opened Events

  /** The verdict of the filter: the first failed check, or the two
      regulation-time scores of an event that passed all three. */
  datatype Screening = Eligible(homeScore: int, awayScore: int) | NotFinished | OtherTournament | MissingScore

  /** An event the engine goes on to match. */
  predicate IsEligible(cfg: Config, e: ApiEvent) {
    && e.statusType == Some("finished")
    && Str(e.tournamentId) == Str(cfg.tournamentId)
    && e.homeScore.Some?
    && e.awayScore.Some?
  }

  function Screen(cfg: Config, e: ApiEvent): (r: Screening)
    ensures r.Eligible? <==> IsEligible(cfg, e)
    ensures r.Eligible? ==> e.homeScore == Some(r.homeScore) && e.awayScore == Some(r.awayScore)
    // the status check comes first, whatever else is wrong with the event
    ensures r == NotFinished <==> e.statusType != Some("finished")
    // the tournament check comes before the score check
    ensures r == OtherTournament <==>
      e.statusType == Some("finished") && Str(e.tournamentId) != Str(cfg.tournamentId)
    ensures r == MissingScore ==> e.homeScore.None? || e.awayScore.None?
  {
    if e.statusType != Some("finished") then NotFinished
    else if Str(e.tournamentId) != Str(cfg.tournamentId) then OtherTournament
    else match (e.homeScore, e.awayScore)
      case (Some(h), Some(a)) => Eligible(h, a)
      case _ => MissingScore
  }

  /** With an integer tournament id configured (the deployment uses 384),
      a finished event passes the tournament check exactly when the feed
      gives that integer or its decimal text. */
  lemma IntTournamentCheck(cfg: Config, e: ApiEvent, n: int)
    requires cfg.tournamentId == Int(n)
    requires e.statusType == Some("finished")
    ensures Screen(cfg, e) != OtherTournament <==>
      (e.tournamentId == Int(n) || e.tournamentId == Text(IntToString(n)))
  {
    StrEqualsIntId(e.tournamentId, n);
  }
}

=== FILE: matcher.dfy ===
/** The matcher: finds the local event a feed event reports on. */
module Matcher {
  import opened Options
  import opened Names
  import opened Events

  /** The widest gap, in calendar days, between the two sources' start
      dates that still counts as the same fixture. */
  const ToleranceDays: int := 14

  /** The feed side of a comparison: normalised names and the start date. */
  datatype Probe = Probe(home: string, away: string, day: int)

  function ProbeOf(cfg: Config, e: ApiEvent): Probe {
    Probe(FeedName(e.homeName), FeedName(e.awayName), DayOf(ApiWallClock(cfg, e)))
  }

  function Abs(x: int): int {
    if x < 0 then -x else x
  }

  /** Same normalised home name, same normalised away name, start dates at
      most `ToleranceDays` apart in either direction. */
  predicate Matches(p: Probe, l: LocalEvent) {
    && p.home == l.homeTeam
    && p.away == l.awayTeam
    && Abs(p.day - DayOf(l.starts)) <= ToleranceDays
  }

  /** The match condition in terms of the feed event itself: both names,
      normalised, equal the local ones, and the feed's start reading lies
      between the midnight 14 days before the local start date and the
      midnight 15 days after it. */
  lemma MatchWindow(cfg: Config, e: ApiEvent, l: LocalEvent)
    ensures Matches(ProbeOf(cfg, e), l) <==>
      && FeedName(e.homeName) == l.homeTeam
      && FeedName(e.awayName) == l.awayTeam
      && (DayOf(l.starts) - ToleranceDays) * SecondsPerDay <= ApiWallClock(cfg, e)
      && ApiWallClock(cfg, e) < (DayOf(l.starts) + ToleranceDays + 1) * SecondsPerDay
  {
  }

  /** The first local event at index `k` or later that matches, scanning
      in list order. */
  function FirstMatchFrom(p: Probe, locals: seq<LocalEvent>, k: nat): (r: Option<nat>)
    requires k <= |locals|
    ensures r.Some? ==> k <= r.value < |locals| && Matches(p, locals[r.value])
    ensures r.Some? ==> forall j :: k <= j < r.value ==> !Matches(p, locals[j])
    ensures r.None? ==> forall j :: k <= j < |locals| ==> !Matches(p, locals[j])
    decreases |locals| - k
  {
    if k == |locals| then None
    else if Matches(p, locals[k]) then Some(k)
    else FirstMatchFrom(p, locals, k + 1)
  }

  /** The index of the local event chosen for probe `p`, if any. */
  function FirstMatch(p: Probe, locals: seq<LocalEvent>): (r: Option<nat>)
    ensures r.Some? ==> r.value < |locals| && Matches(p, locals[r.value])
    ensures r.Some? ==> forall j :: 0 <= j < r.value ==> !Matches(p, locals[j])
    ensures r.None? <==> forall j :: 0 <= j < |locals| ==> !Matches(p, locals[j])
  {
    FirstMatchFrom(p, locals, 0)
  }

  /** The scan as the engine runs it: a loop over the local events that
      stops at the first match (`break`). */
  method ScanLocals(p: Probe, locals: seq<LocalEvent>) returns (found: Option<nat>)
    ensures found == FirstMatch(p, locals)
  {
    found := None;
    var k := 0;
    while k < |locals|
      invariant 0 <= k <= |locals|
      invariant FirstMatch(p, locals) == FirstMatchFrom(p, locals, k)
    {
      if Matches(p, locals[k]) {
        found := Some(k);
        break;
      }
      k := k + 1;
    }
  }

  /** The chosen event is characterised by list order alone: an index is
      chosen exactly when it matches and no earlier one does. Among several
      events inside the window, the earliest in the list wins, not the
      nearest in time. */
  lemma FirstMatchIsEarliest(p: Probe, locals: seq<LocalEvent>, i: nat)
    requires i < |locals|
    ensures FirstMatch(p, locals) == Some(i) <==>
      Matches(p, locals[i]) && forall j :: 0 <= j < i ==> !Matches(p, locals[j])
  {
  }

  /** The tolerance boundary: with equal names, dates exactly 14 days
      apart match and dates 15 days apart do not, in either direction. */
  lemma ToleranceBoundary(p: Probe, l: LocalEvent)
    requires p.home == l.homeTeam && p.away == l.awayTeam
    ensures p.day - DayOf(l.starts) == 14 ==> Matches(p, l)
    ensures DayOf(l.starts) - p.day == 14 ==> Matches(p, l)
    ensures p.day - DayOf(l.starts) == 15 ==> !Matches(p, l)
    ensures DayOf(l.starts) - p.day == 15 ==> !Matches(p, l)
  {
  }

  /** Matching is on exact normalised names: names whose normal forms
      differ never match, however close the dates. */
  lemma NamesMustAgree(cfg: Config, e: ApiEvent, l: LocalEvent)
    requires Matches(ProbeOf(cfg, e), l)
    ensures Normalize(e.homeName.GetOr("")) == l.homeTeam
    ensures Normalize(e.awayName.GetOr("")) == l.awayTeam
    ensures IsNormal(l.homeTeam) && IsNormal(l.awayTeam)
  {
  }
}

=== FILE: names.dfy ===
/** Team-name normalisation: Python's `s.strip().lower()`, restricted to
    ASCII. Both feeds are compared only after this normalisation. */
module Names {
  import opened Options

  /** Python's `str.isspace` on the ASCII range: tab, line feed, vertical
      tab, form feed, carriage return, the four information separators
      0x1C-0x1F, and space. */
  predicate IsSpace(c: char) {
    ('\t' <= c <= '\r') || ('\U{1C}' <= c <= ' ')
  }

  predicate IsUpper(c: char) {
    'A' <= c <= 'Z'
  }

  predicate AllSpace(s: string) {
    forall k :: 0 <= k < |s| ==> IsSpace(s[k])
  }

  /** No whitespace at either end. */
  predicate Trimmed(s: string) {
    s == [] || (!IsSpace(s[0]) && !IsSpace(s[|s| - 1]))
  }

  predicate NoUpper(s: string) {
    forall k :: 0 <= k < |s| ==> !IsUpper(s[k])
  }

  /** The shape of a name after normalisation. */
  predicate IsNormal(s: string) {
    Trimmed(s) && NoUpper(s)
  }

  /** `s` is `t` with whitespace padding of length `i` before it and
      whatever remains after it. */
  predicate PaddedAt(s: string, t: string, i: int) {
    0 <= i && i + |t| <= |s| && s[i..i + |t|] == t && AllSpace(s[..i]) && AllSpace(s[i + |t|..])
  }

  function LowerChar(c: char): (r: char)
    ensures !IsUpper(r)
    ensures IsSpace(r) <==> IsSpace(c)
    ensures IsUpper(c) ==> r != c && r as int - c as int == 32
    ensures !IsUpper(c) ==> r == c
  {
    if IsUpper(c) then (c as int + 32) as char else c
  }

  /** Python's `str.lower` on ASCII letters; every other character is kept. */
  function Lower(s: string): (r: string)
    ensures |r| == |s|
    ensures forall k :: 0 <= k < |s| ==> r[k] == LowerChar(s[k])
    ensures NoUpper(r)
  {
    seq(|s|, k requires 0 <= k < |s| => LowerChar(s[k]))
  }

  /** Python's `str.lstrip()`: drops the longest whitespace prefix. */
  function TrimLeft(s: string): (r: string)
    ensures r != [] ==> !IsSpace(r[0])
    decreases |s|
  {
    if s != [] && IsSpace(s[0]) then TrimLeft(s[1..]) else s
  }

  /** Python's `str.rstrip()`: drops the longest whitespace suffix. */
  function TrimRight(s: string): (r: string)
    ensures r != [] ==> !IsSpace(r[|r| - 1])
    decreases |s|
  {
    if s != [] && IsSpace(s[|s| - 1]) then TrimRight(s[..|s| - 1]) else s
  }

  /** Python's `str.strip()`. */
  function Trim(s: string): (r: string)
    ensures Trimmed(r)
  {
    TrimRightDropsSuffix(TrimLeft(s));
    TrimRight(TrimLeft(s))
  }

  /** `s.strip().lower()`. */
  function Normalize(s: string): (r: string)
    ensures IsNormal(r)
  {
    Lower(Trim(s))
  }

  /** The local store's reading of a nullable name:
      `r.strip().lower() if r else ""` (an empty string is falsy too). */
  function LocalName(raw: Option<string>): (r: string)
    ensures r == FeedName(raw)
    ensures IsNormal(r)
  {
    match raw
    case None => ""
    case Some(s) => if s == [] then "" else Normalize(s)
  }

  /** The external feed's reading of a name: `.get("name", "").strip().lower()`. */
  function FeedName(raw: Option<string>): (r: string)
    ensures IsNormal(r)
    ensures raw.None? ==> r == ""
  {
    Normalize(raw.GetOr(""))
  }

  // ---------------------------------------------------------------------
  // Properties

  /** What `lstrip` removes is a whitespace prefix; the rest is kept. */
  lemma {:induction false} TrimLeftDropsPrefix(s: string)
    ensures |TrimLeft(s)| <= |s| && TrimLeft(s) == s[|s| - |TrimLeft(s)|..]
    ensures AllSpace(s[..|s| - |TrimLeft(s)|])
    decreases |s|
  {
    if s != [] && IsSpace(s[0]) {
      TrimLeftDropsPrefix(s[1..]);
      var n := |s| - |TrimLeft(s)|;
      assert s[1..][..n - 1] == s[1..n];
      assert s[1..][n - 1..] == s[n..];
    }
  }

  /** What `rstrip` removes is a whitespace suffix; the rest is kept. */
  lemma {:induction false} TrimRightDropsSuffix(s: string)
    ensures |TrimRight(s)| <= |s| && TrimRight(s) == s[..|TrimRight(s)|]
    ensures AllSpace(s[|TrimRight(s)|..])
    decreases |s|
  {
    if s != [] && IsSpace(s[|s| - 1]) {
      TrimRightDropsSuffix(s[..|s| - 1]);
      var n := |TrimRight(s)|;
      assert s[..|s| - 1][..n] == s[..n];
      assert s[n..] == s[..|s| - 1][n..] + [s[|s| - 1]];
    }
  }

  /** `strip` keeps one contiguous piece of its input and removes only
      whitespace around it. */
  lemma TrimIsPadded(s: string)
    ensures exists i :: PaddedAt(s, Trim(s), i)
  {
    var l := TrimLeft(s);
    var r := TrimRight(l);
    TrimLeftDropsPrefix(s);
    TrimRightDropsSuffix(l);
    assert PaddedAt(s, r, |s| - |l|) by {
      assert s[|s| - |l|..][..|r|] == s[|s| - |l|..|s| - |l| + |r|];
      assert s[|s| - |l| + |r|..] == l[|r|..];
    }
    assert Trim(s) == r;
  }

  lemma {:induction false} TrimLeftOfTrimmed(s: string)
    requires s == [] || !IsSpace(s[0])
    ensures TrimLeft(s) == s
  {
  }

  lemma {:induction false} TrimRightOfTrimmed(s: string)
    requires s == [] || !IsSpace(s[|s| - 1])
    ensures TrimRight(s) == s
  {
  }

  /** Trimming leaves a trimmed string alone. */
  lemma TrimOfTrimmed(s: string)
    requires Trimmed(s)
    ensures Trim(s) == s
  {
    TrimLeftOfTrimmed(s);
    TrimRightOfTrimmed(s);
  }

  /** Lowercasing never creates or removes whitespace, so it commutes with
      stripping from the left. */
  lemma {:induction false} TrimLeftLower(s: string)
    ensures TrimLeft(Lower(s)) == Lower(TrimLeft(s))
    decreases |s|
  {
    if s != [] && IsSpace(s[0]) {
      assert Lower(s)[1..] == Lower(s[1..]);
      TrimLeftLower(s[1..]);
    }
  }

  lemma {:induction false} TrimRightLower(s: string)
    ensures TrimRight(Lower(s)) == Lower(TrimRight(s))
    decreases |s|
  {
    if s != [] && IsSpace(s[|s| - 1]) {
      assert Lower(s)[..|s| - 1] == Lower(s[..|s| - 1]);
      TrimRightLower(s[..|s| - 1]);
    }
  }

  /** Stripping and lowercasing commute. */
  lemma TrimLower(s: string)
    ensures Trim(Lower(s)) == Lower(Trim(s))
  {
    TrimLeftLower(s);
    TrimRightLower(TrimLeft(s));
  }

  lemma LowerOfNoUpper(s: string)
    requires NoUpper(s)
    ensures Lower(s) == s
  {
  }

  /** A name is a fixed point of normalisation exactly when it has the
      normal shape. */
  lemma NormalizeFixedPoint(s: string)
    ensures Normalize(s) == s <==> IsNormal(s)
  {
    if IsNormal(s) {
      TrimOfTrimmed(s);
      LowerOfNoUpper(s);
    }
  }

  /** Normalising twice is normalising once. */
  lemma NormalizeIdempotent(s: string)
    ensures Normalize(Normalize(s)) == Normalize(s)
  {
    NormalizeFixedPoint(Normalize(s));
  }

  /** Stripping removes exactly the whitespace padding around a trimmed core. */
  lemma {:induction false} TrimPadding(w1: string, t: string, w2: string)
    requires AllSpace(w1) && AllSpace(w2) && Trimmed(t)
    ensures Trim(w1 + t + w2) == t
  {
    if t == [] {
      assert w1 + t + w2 == w1 + w2;
      TrimLeftPadding(w1 + w2, []);
      assert w1 + w2 + [] == w1 + w2;
    } else {
      assert w1 + t + w2 == w1 + (t + w2);
      TrimLeftPadding(w1, t + w2);
      TrimRightPadding(t, w2);
    }
  }

  lemma {:induction false} TrimLeftPadding(w: string, u: string)
    requires AllSpace(w) && (u == [] || !IsSpace(u[0]))
    ensures TrimLeft(w + u) == u
    decreases |w|
  {
    if w == [] {
      assert w + u == u;
      TrimLeftOfTrimmed(u);
    } else {
      assert (w + u)[1..] == w[1..] + u;
      TrimLeftPadding(w[1..], u);
    }
  }

  lemma {:induction false} TrimRightPadding(u: string, w: string)
    requires AllSpace(w) && (u == [] || !IsSpace(u[|u| - 1]))
    ensures TrimRight(u + w) == u
    decreases |w|
  {
    if w == [] {
      assert u + w == u;
      TrimRightOfTrimmed(u);
    } else {
      assert (u + w)[..|u + w| - 1] == u + w[..|w| - 1];
      TrimRightPadding(u, w[..|w| - 1]);
    }
  }

  lemma AllSpaceConcat(u: string, v: string)
    requires AllSpace(u) && AllSpace(v)
    ensures AllSpace(u + v)
  {
    forall k | 0 <= k < |u + v|
      ensures IsSpace((u + v)[k])
    {
      if k < |u| {
        assert (u + v)[k] == u[k];
      } else {
        assert (u + v)[k] == v[k - |u|];
      }
    }
  }

  lemma ThreeWaySplit(a: string, i: int, j: int)
    requires 0 <= i <= j <= |a|
    ensures a == a[..i] + a[i..j] + a[j..]
  {
  }

  lemma Regroup(w1: string, pre: string, t: string, post: string, w2: string)
    ensures w1 + (pre + t + post) + w2 == (w1 + pre) + t + (post + w2)
  {
  }

  /** Surrounding whitespace never changes a normalised name. */
  lemma PaddingIgnored(w1: string, a: string, w2: string)
    requires AllSpace(w1) && AllSpace(w2)
    ensures Trim(w1 + a + w2) == Trim(a)
  {
    var t := Trim(a);
    TrimIsPadded(a);
    var i :| PaddedAt(a, t, i);
    var pre, post := a[..i], a[i + |t|..];
    ThreeWaySplit(a, i, i + |t|);
    Regroup(w1, pre, t, post, w2);
    AllSpaceConcat(w1, pre);
    AllSpaceConcat(post, w2);
    TrimPadding(w1 + pre, t, post + w2);
  }

  /** Names that differ only in letter case and surrounding whitespace
      normalise identically. */
  lemma CosmeticVariantsAgree(w1: string, a: string, w2: string, b: string)
    requires AllSpace(w1) && AllSpace(w2)
    requires Lower(a) == Lower(b)
    ensures Normalize(w1 + a + w2) == Normalize(b)
  {
    PaddingIgnored(w1, a, w2);
    TrimLower(a);
    TrimLower(b);
  }
}

=== FILE: options.dfy ===
/** Optional values: the model's stand-in for Python's `None` and for a
    dictionary key that is absent. */
module Options {

  datatype Option<+T> = None | Some(value: T) {

    /** The value, or `default` when absent (Python's `d.get(key, default)`). */
    function GetOr(default: T): T {
      match this
      case Some(v) => v
      case None => default
    }
  }
}

=== FILE: pyvalues.dfy ===
/** The JSON values an identifier field is taken to hold (null, booleans,
    integers and strings; floats, objects and arrays are not modelled) as
    Python sees them after `response.json()`, and Python's `str()` on them.
    The tournament filter compares identifiers through `str()`, so an
    integer id and its decimal string are the same id. */
module PyValues {

  /** A modelled JSON value of an identifier field; `Null` stands for both
      JSON `null` and an absent key (`dict.get` returns `None` for either). */
  datatype Scalar = Null | Bool(b: bool) | Int(i: int) | Text(s: string)

  predicate IsDigit(c: char) {
    '0' <= c <= '9'
  }

  predicate AllDigits(s: string) {
    forall k :: 0 <= k < |s| ==> IsDigit(s[k])
  }

  function DigitChar(d: nat): (c: char)
    requires d < 10
    ensures IsDigit(c)
    ensures c as int - '0' as int == d
  {
    ('0' as int + d) as char
  }

  function DigitValue(c: char): (d: nat)
    requires IsDigit(c)
    ensures d < 10 && DigitChar(d) == c
  {
    c as int - '0' as int
  }

  /** Decimal digits of a natural number, most significant first, with no
      leading zero. */
  function NatToString(n: nat): (r: string)
    ensures |r| >= 1 && AllDigits(r)
    ensures r[0] == '0' ==> n == 0
    decreases n
  {
    if n < 10 then [DigitChar(n)] else NatToString(n / 10) + [DigitChar(n % 10)]
  }

  /** Python's `str(i)` for an `int`. */
  function IntToString(i: int): (r: string)
    ensures |r| >= 1
    ensures i >= 0 <==> AllDigits(r)
    ensures r[0] == '-' || IsDigit(r[0])
  {
    if i < 0 then
      var r := "-" + NatToString(-i);
      assert !IsDigit(r[0]);
      r
    else
      NatToString(i)
  }

  /** Python's `str(x)` for the scalars a JSON field can hold. */
  function Str(x: Scalar): (r: string)
    ensures !x.Text? ==> |r| >= 1 && (x.Int? <==> r[0] == '-' || IsDigit(r[0]))
  {
    match x
    case Null => "None"
    case Bool(b) => if b then "True" else "False"
    case Int(i) => IntToString(i)
    case Text(s) => s
  }

  /** Reads decimal digits back into a number (the inverse of NatToString). */
  function ParseNat(s: string): nat
    requires AllDigits(s)
    decreases |s|
  {
    if s == [] then 0 else ParseNat(s[..|s| - 1]) * 10 + DigitValue(s[|s| - 1])
  }

  /** Decimal rendering loses nothing: parsing it gives the number back. */
  lemma {:induction false} ParseNatToString(n: nat)
    ensures ParseNat(NatToString(n)) == n
    decreases n
  {
    var s := NatToString(n);
    if n >= 10 {
      assert s[..|s| - 1] == NatToString(n / 10);
      ParseNatToString(n / 10);
    }
  }

  /** `str` on integers is injective. */
  lemma IntToStringInjective(a: int, b: int)
    ensures IntToString(a) == IntToString(b) <==> a == b
  {
    if IntToString(a) == IntToString(b) {
      if a < 0 && b < 0 {
        assert IntToString(a)[1..] == NatToString(-a);
        assert IntToString(b)[1..] == NatToString(-b);
        ParseNatToString(-a);
        ParseNatToString(-b);
      } else if a >= 0 && b >= 0 {
        ParseNatToString(a);
        ParseNatToString(b);
      }
    }
  }

  /** Which feed values pass `str(x) == str(n)` against an integer
      configured id `n`: exactly the integer itself and its decimal text.
      `None`, booleans and other texts never do. */
  lemma StrEqualsIntId(x: Scalar, n: int)
    ensures Str(x) == Str(Int(n)) <==> (x == Int(n) || x == Text(IntToString(n)))
  {
    var d := IntToString(n);
    match x
    case Null =>
      assert Str(x)[0] == 'N';
      assert !IsDigit('N');
    case Bool(b) =>
      assert Str(x)[0] == 'T' || Str(x)[0] == 'F';
    case Int(i) =>
      IntToStringInjective(i, n);
    case Text(s) =>
  }

  /** Apart from text, `str` tells scalars apart: `None`, `True`, `False`
      and every int have pairwise different renderings. Text is where
      collisions live (`"384"` renders like `384`). */
  lemma StrInjectiveOnNonText(x: Scalar, y: Scalar)
    requires !x.Text? && !y.Text?
    ensures Str(x) == Str(y) <==> x == y
  {
    if x.Int? && y.Int? {
      IntToStringInjective(x.i, y.i);
    } else if Str(x) == Str(y) {
      assert Str(x)[0] == Str(y)[0];
      assert Str(x)[1] == Str(y)[1];
    }
  }
}

=== FILE: reader.dfy ===
/** The local event reader (`fetch_pinnacle_events`): the projection of
    the odds table's rows into local events with normalised team names.
    The query itself (`starts` before now minus three hours, DISTINCT) is
    the database's work; the rows it returns are this module's input. */
module Reader {
  import opened Options
  import opened Names
  import opened Events
  import opened Store
  import opened Batch
  import opened Driver

  /** One row read: `home_team` and `away_team` stripped and lowercased,
      NULL or empty read as "". */
  function ReadRow(row: LocalRow): (r: LocalEvent)
    ensures r.eventId == row.eventId && r.starts == row.starts
    ensures r.homeTeam == FeedName(row.homeTeam) && r.awayTeam == FeedName(row.awayTeam)
    ensures IsNormal(r.homeTeam) && IsNormal(r.awayTeam)
  {
    LocalEvent(row.eventId, LocalName(row.homeTeam), LocalName(row.awayTeam), row.starts)
  }

  /** The reader as intended: every row, in order, keeping its key and
      start, with its names normalised exactly as the feed's names are. */
  function ReadLocalEvents(rows: seq<LocalRow>): (r: seq<LocalEvent>)
    ensures |r| == |rows|
    ensures forall i :: 0 <= i < |rows| ==> r[i].eventId == rows[i].eventId && r[i].starts == rows[i].starts
    ensures forall i :: 0 <= i < |rows| ==>
      r[i].homeTeam == FeedName(rows[i].homeTeam) && r[i].awayTeam == FeedName(rows[i].awayTeam)
    ensures forall i :: 0 <= i < |rows| ==> IsNormal(r[i].homeTeam) && IsNormal(r[i].awayTeam)
  {
    seq(|rows|, i requires 0 <= i < |rows| => ReadRow(rows[i]))
  }

  /** The reader as written: computing the cutoff refers to `timezone`,
      which the module never imports, so every call raises `NameError`;
      the method's own handler catches it and returns an empty list,
      whatever the table holds. */
  function ReadLocalEventsAsWritten(rows: seq<LocalRow>): seq<LocalEvent> {
    []
  }

  lemma {:induction false} NothingAttempted(outs: seq<Outcome>)
    requires forall k :: 0 <= k < |outs| ==> !Attempted(outs[k])
    ensures NumExecuted(outs) == 0 && NumSkipped(outs) == |outs| && ExecutedKeys(outs) == {}
  {
    if outs != [] {
      assert forall k :: 0 <= k < |outs[1..]| ==> outs[1..][k] == outs[k + 1];
      NothingAttempted(outs[1..]);
    }
  }

  /** As written, a batch never writes a row: every feed event is skipped,
      finished and tracked or not. */
  lemma AsWrittenBatchMatchesNothing(cfg: Config, rows: seq<LocalRow>, events: seq<ApiEvent>, faults: seq<bool>, store: Results)
    ensures ProcessBatch(cfg, ReadLocalEventsAsWritten(rows), events, faults, store) == Tally(store, 0, |events|)
  {
    var outs := Outcomes(cfg, ReadLocalEventsAsWritten(rows), events, faults);
    NothingAttempted(outs);
    var r := ProcessBatch(cfg, ReadLocalEventsAsWritten(rows), events, faults, store);
    assert Apply(Tally(store, 0, 0), outs).store == store;
  }

  /** As written, a whole date-range run leaves the results table as it
      found it. */
  lemma {:induction false} AsWrittenRunWritesNothing(cfg: Config, rows: seq<LocalRow>, feed: int -> Option<seq<ApiEvent>>, faults: int -> seq<bool>, first: int, last: int, store: Results)
    ensures RunRange(cfg, ReadLocalEventsAsWritten(rows), feed, faults, first, last, store).store == store
    decreases last - first
  {
    if first <= last {
      AsWrittenBatchMatchesNothing(cfg, rows, EventsFor(feed, first), faults(first), store);
      AsWrittenRunWritesNothing(cfg, rows, feed, faults, first + 1, last, store);
    }
  }

  /** As written, every day's log entry counts nothing and skips every
      event the feed returned for that day. */
  lemma AsWrittenLogSkipsEverything(cfg: Config, rows: seq<LocalRow>, feed: int -> Option<seq<ApiEvent>>, faults: int -> seq<bool>, first: int, last: int, store: Results, k: nat)
    requires k < |RunRange(cfg, ReadLocalEventsAsWritten(rows), feed, faults, first, last, store).log|
    ensures
      var entry := RunRange(cfg, ReadLocalEventsAsWritten(rows), feed, faults, first, last, store).log[k];
      entry.count == 0 && entry.skipped == |EventsFor(feed, entry.day)|
  {
    var locals := ReadLocalEventsAsWritten(rows);
    var entry := RunRange(cfg, locals, feed, faults, first, last, store).log[k];
    RangeLogIsPerDay(cfg, locals, feed, faults, first, last, store, k);
    NothingAttempted(DayOutcomes(cfg, locals, feed, faults, entry.day));
  }

  /** `update` as written: the local events are read once, before the
      loop over dates, with the reader as written. The table comes out as
      it went in. */
  method UpdateAsWritten(cfg: Config, rows: seq<LocalRow>, feed: int -> Option<seq<ApiEvent>>, faults: int -> seq<bool>, first: int, last: int, store: Results)
    returns (table: Results, log: seq<DayLog>)
    ensures RangeRun(table, log) == RunRange(cfg, ReadLocalEventsAsWritten(rows), feed, faults, first, last, store)
    ensures table == store
  {
    var locals := ReadLocalEventsAsWritten(rows);
    table, log := Update(cfg, locals, feed, faults, first, last, store);
    AsWrittenRunWritesNothing(cfg, rows, feed, faults, first, last, store);
  }

  /** `update` with the intended reader: every day is matched against the
      same local events, read once before the loop. */
  method UpdateFromRows(cfg: Config, rows: seq<LocalRow>, feed: int -> Option<seq<ApiEvent>>, faults: int -> seq<bool>, first: int, last: int, store: Results)
    returns (table: Results, log: seq<DayLog>)
    ensures RangeRun(table, log) == RunRange(cfg, ReadLocalEvents(rows), feed, faults, first, last, store)
    ensures LogDays(log) == Days(first, last)
    ensures store <= table
  {
    var locals := ReadLocalEvents(rows);
    table, log := Update(cfg, locals, feed, faults, first, last, store);
  }
}

=== FILE: scenarios.dfy ===
/** Worked examples of one batch on concrete data. 2025-11-01 is day
    20393 and 1762009200 is 2025-11-01 15:00 UTC; the host runs on UTC and
    the tracked tournament is 384. */
module Scenarios {
  import opened Options
  import opened PyValues
  import opened Names
  import opened Events
  import opened Store
  import opened Filter
  import opened Matcher
  import opened Batch
  import opened Reader

  const Cfg := Config(Int(384), 0)
  const Kickoff := 1762009200

  /** The odds table's row for Arsenal v Chelsea, with the home name as stored. */
  function LocalRowFor(eventId: int, home: string, starts: int): LocalRow {
    LocalRow(eventId, Some(home), Some("Chelsea"), starts)
  }

  /** A feed event for Arsenal v Chelsea ending 2-1 in normal time. */
  function FeedEvent(status: string, tournament: Scalar, home: string, ts: int): ApiEvent {
    ApiEvent(Some(status), tournament, Some(home), Some("chelsea"), Some(2), Some(1), ts)
  }

  lemma NormalOfTrimmed(s: string)
    requires Trimmed(s)
    ensures Normalize(s) == Lower(s)
  {
    TrimOfTrimmed(s);
  }

  lemma ArsenalNormal()
    ensures Normalize("Arsenal") == "arsenal" && Normalize("arsenal") == "arsenal"
  {
    NormalOfTrimmed("Arsenal");
    NormalOfTrimmed("arsenal");
    var a := Lower("Arsenal");
    assert a[0] == 'a' && a[1] == 'r' && a[2] == 's' && a[3] == 'e' && a[4] == 'n' && a[5] == 'a' && a[6] == 'l';
    var b := Lower("arsenal");
    assert b[0] == 'a' && b[1] == 'r' && b[2] == 's' && b[3] == 'e' && b[4] == 'n' && b[5] == 'a' && b[6] == 'l';
  }

  lemma ChelseaNormal()
    ensures Normalize("Chelsea") == "chelsea" && Normalize("chelsea") == "chelsea"
  {
    NormalOfTrimmed("Chelsea");
    NormalOfTrimmed("chelsea");
    var a := Lower("Chelsea");
    assert a[0] == 'c' && a[1] == 'h' && a[2] == 'e' && a[3] == 'l' && a[4] == 's' && a[5] == 'e' && a[6] == 'a';
    var b := Lower("chelsea");
    assert b[0] == 'c' && b[1] == 'h' && b[2] == 'e' && b[3] == 'l' && b[4] == 's' && b[5] == 'e' && b[6] == 'a';
  }

  lemma ArsenalFcNormal()
    ensures Normalize("Arsenal FC") == "arsenal fc"
  {
    NormalOfTrimmed("Arsenal FC");
    var a := Lower("Arsenal FC");
    assert a[0] == 'a' && a[1] == 'r' && a[2] == 's' && a[3] == 'e' && a[4] == 'n';
    assert a[5] == 'a' && a[6] == 'l' && a[7] == ' ' && a[8] == 'f' && a[9] == 'c';
  }

  lemma PaddedCapsTrim()
    ensures Trim(" ARSENAL\t") == "ARSENAL"
  {
    assert " ARSENAL\t" == " " + "ARSENAL" + "\t";
    assert AllSpace(" ") && AllSpace("\t") && Trimmed("ARSENAL");
    TrimPadding(" ", "ARSENAL", "\t");
  }

  lemma CapsLower()
    ensures Lower("ARSENAL") == "arsenal"
  {
    var a := Lower("ARSENAL");
    assert a[0] == 'a' && a[1] == 'r' && a[2] == 's' && a[3] == 'e' && a[4] == 'n' && a[5] == 'a' && a[6] == 'l';
  }

  lemma PaddedCapsNormal()
    ensures Normalize(" ARSENAL\t") == "arsenal"
  {
    PaddedCapsTrim();
    CapsLower();
  }

  /** Both readings of a present, non-empty name are its normal form. */
  lemma PresentName(s: string)
    requires s != []
    ensures LocalName(Some(s)) == Normalize(s) && FeedName(Some(s)) == Normalize(s)
  {
  }

  /** The reader on one row. */
  lemma ReadOne(eventId: int, home: string, starts: int)
    requires home != []
    ensures ReadLocalEvents([LocalRowFor(eventId, home, starts)]) == [LocalEvent(eventId, Normalize(home), "chelsea", starts)]
  {
    PresentName(home);
    PresentName("Chelsea");
    ChelseaNormal();
  }

  /** The reader on the odds table's row for Arsenal v Chelsea. */
  lemma ReadArsenal(eventId: int, starts: int)
    ensures ReadLocalEvents([LocalRowFor(eventId, "Arsenal", starts)]) == [LocalEvent(eventId, "arsenal", "chelsea", starts)]
  {
    ReadOne(eventId, "Arsenal", starts);
    ArsenalNormal();
  }

  /** The reader on two rows for Arsenal v Chelsea. */
  lemma ReadArsenalPair(id1: int, starts1: int, id2: int, starts2: int)
    ensures ReadLocalEvents([LocalRowFor(id1, "Arsenal", starts1), LocalRowFor(id2, "Arsenal", starts2)])
         == [LocalEvent(id1, "arsenal", "chelsea", starts1), LocalEvent(id2, "arsenal", "chelsea", starts2)]
  {
    PresentName("Arsenal");
    PresentName("Chelsea");
    ArsenalNormal();
    ChelseaNormal();
  }

  /** The probe of a feed event for Arsenal v Chelsea. */
  lemma FeedProbe(home: string, ts: int)
    requires home != []
    ensures ProbeOf(Cfg, FeedEvent("finished", Int(384), home, ts)) == Probe(Normalize(home), "chelsea", DayOf(ts))
  {
    PresentName(home);
    PresentName("chelsea");
    ChelseaNormal();
  }

  /** The row written for an Arsenal v Chelsea feed event, into an
      empty table. */
  lemma RowOf(l: LocalEvent, status: string, tournament: Scalar, home: string, ts: int)
    ensures
      var row := BuildRow(Cfg, l, FeedEvent(status, tournament, home, ts), 2, 1);
      row == ResultRow(l.eventId, Some(home), Some("chelsea"), ts, 2, 1) && Insert({}, row) == {row}
  {
  }

  /** A batch of one feed event whose insert does not fail is one step. */
  lemma SingleEventBatch(cfg: Config, locals: seq<LocalEvent>, e: ApiEvent, store: Results)
    ensures ProcessBatch(cfg, locals, [e], [], store) == Step(Tally(store, 0, 0), Classify(cfg, locals, e, false))
  {
    var outs := Outcomes(cfg, locals, [e], []);
    assert outs == [Classify(cfg, locals, e, false)];
    assert outs[1..] == [];
  }

  /** A batch of one eligible feed event whose insert does not fail,
      matched to the `i`-th local event, writes the built row. */
  lemma MatchedSingleEvent(cfg: Config, locals: seq<LocalEvent>, e: ApiEvent, i: nat, store: Results)
    requires i < |locals| && IsEligible(cfg, e)
    requires Matches(ProbeOf(cfg, e), locals[i])
    requires forall j :: 0 <= j < i ==> !Matches(ProbeOf(cfg, e), locals[j])
    ensures ProcessBatch(cfg, locals, [e], [], store)
         == Tally(Insert(store, BuildRow(cfg, locals[i], e, e.homeScore.value, e.awayScore.value)), 1, 0)
  {
    FirstMatchIsEarliest(ProbeOf(cfg, e), locals, i);
    SingleEventBatch(cfg, locals, e, store);
  }

  /** A finished match of the tracked tournament, stored locally under a
      differently cased name and kicking off five minutes later than the
      local record says, is written once, under the local key, with the
      feed's raw names and normal-time scores. */
  lemma FinishedMatchIsRecorded()
    ensures ProcessBatch(Cfg, ReadLocalEvents([LocalRowFor(1001, "Arsenal", Kickoff)]),
                         [FeedEvent("finished", Int(384), " ARSENAL\t", Kickoff + 300)], [], {})
         == Tally({ResultRow(1001, Some(" ARSENAL\t"), Some("chelsea"), Kickoff + 300, 2, 1)}, 1, 0)
  {
    var locals := [LocalEvent(1001, "arsenal", "chelsea", Kickoff)];
    ReadArsenal(1001, Kickoff);
    var e := FeedEvent("finished", Int(384), " ARSENAL\t", Kickoff + 300);
    FeedProbe(" ARSENAL\t", Kickoff + 300);
    PaddedCapsNormal();
    DayOfBounds(Kickoff + 300, 20393);
    DayOfBounds(Kickoff, 20393);
    MatchedSingleEvent(Cfg, locals, e, 0, {});
    RowOf(locals[0], "finished", Int(384), " ARSENAL\t", Kickoff + 300);
  }

  /** An event still in play is skipped and nothing is written. */
  lemma InProgressIsSkipped()
    ensures ProcessBatch(Cfg, ReadLocalEvents([LocalRowFor(1001, "Arsenal", Kickoff)]),
                         [FeedEvent("inprogress", Int(384), "Arsenal", Kickoff)], [], {})
         == Tally({}, 0, 1)
  {
    var locals := ReadLocalEvents([LocalRowFor(1001, "Arsenal", Kickoff)]);
    SingleEventBatch(Cfg, locals, FeedEvent("inprogress", Int(384), "Arsenal", Kickoff), {});
  }

  /** The tournament id arrives as text: `str()` makes "384" and 384 agree,
      but not "0384". */
  lemma TextTournamentId()
    ensures IsEligible(Cfg, FeedEvent("finished", Text("384"), "Arsenal", Kickoff))
    ensures !IsEligible(Cfg, FeedEvent("finished", Text("0384"), "Arsenal", Kickoff))
  {
    assert IntToString(384) == "384" by {
      assert NatToString(384) == NatToString(38) + [DigitChar(4)];
      assert NatToString(38) == NatToString(3) + [DigitChar(8)];
    }
    IntTournamentCheck(Cfg, FeedEvent("finished", Text("384"), "Arsenal", Kickoff), 384);
    IntTournamentCheck(Cfg, FeedEvent("finished", Text("0384"), "Arsenal", Kickoff), 384);
  }

  /** Two local records of the fixture inside the window, one day apart:
      the first in list order wins, not the nearer one. */
  lemma FirstListedWins()
    ensures
      var locals := ReadLocalEvents([LocalRowFor(1001, "Arsenal", Kickoff - 86400), LocalRowFor(1002, "Arsenal", Kickoff)]);
      ProcessBatch(Cfg, locals, [FeedEvent("finished", Int(384), "arsenal", Kickoff)], [], {})
      == Tally({ResultRow(1001, Some("arsenal"), Some("chelsea"), Kickoff, 2, 1)}, 1, 0)
  {
    var locals := [LocalEvent(1001, "arsenal", "chelsea", Kickoff - 86400), LocalEvent(1002, "arsenal", "chelsea", Kickoff)];
    assert ReadLocalEvents([LocalRowFor(1001, "Arsenal", Kickoff - 86400), LocalRowFor(1002, "Arsenal", Kickoff)]) == locals by {
      ReadArsenalPair(1001, Kickoff - 86400, 1002, Kickoff);
    }
    var e := FeedEvent("finished", Int(384), "arsenal", Kickoff);
    assert ProbeOf(Cfg, e) == Probe("arsenal", "chelsea", 20393) by {
      FeedProbe("arsenal", Kickoff);
      ArsenalNormal();
      DayOfBounds(Kickoff, 20393);
    }
    assert Matches(ProbeOf(Cfg, e), locals[0]) by {
      DayOfBounds(Kickoff - 86400, 20392);
    }
    MatchedSingleEvent(Cfg, locals, e, 0, {});
    RowOf(locals[0], "finished", Int(384), "arsenal", Kickoff);
  }

  /** A local record fifteen days away is outside the window. */
  lemma FifteenDaysApartIsUnmatched()
    ensures ProcessBatch(Cfg, ReadLocalEvents([LocalRowFor(1001, "Arsenal", Kickoff - 15 * 86400)]),
                         [FeedEvent("finished", Int(384), " ARSENAL\t", Kickoff)], [], {})
         == Tally({}, 0, 1)
  {
    var locals := [LocalEvent(1001, "arsenal", "chelsea", Kickoff - 15 * 86400)];
    ReadArsenal(1001, Kickoff - 15 * 86400);
    var e := FeedEvent("finished", Int(384), " ARSENAL\t", Kickoff);
    assert !Matches(ProbeOf(Cfg, e), locals[0]) by {
      FeedProbe(" ARSENAL\t", Kickoff);
      DayOfBounds(Kickoff - 15 * 86400, 20378);
      DayOfBounds(Kickoff, 20393);
    }
    SingleEventBatch(Cfg, locals, e, {});
  }

  /** "Arsenal FC" and "Arsenal" are different names to the matcher. */
  lemma SuffixedNameIsUnmatched()
    ensures ProcessBatch(Cfg, ReadLocalEvents([LocalRowFor(1001, "Arsenal FC", Kickoff)]),
                         [FeedEvent("finished", Int(384), " ARSENAL\t", Kickoff)], [], {})
         == Tally({}, 0, 1)
  {
    ReadOne(1001, "Arsenal FC", Kickoff);
    ArsenalFcNormal();
    var locals := ReadLocalEvents([LocalRowFor(1001, "Arsenal FC", Kickoff)]);
    var e := FeedEvent("finished", Int(384), " ARSENAL\t", Kickoff);
    PresentName(" ARSENAL\t");
    PaddedCapsNormal();
    assert ProbeOf(Cfg, e).home == "arsenal";
    assert !Matches(ProbeOf(Cfg, e), locals[0]);
    SingleEventBatch(Cfg, locals, e, {});
  }

  /** Running the first example again leaves the table as it was and
      reports the executed statement again. */
  lemma RerunOfFinishedMatch()
    ensures
      var row := ResultRow(1001, Some(" ARSENAL\t"), Some("chelsea"), Kickoff + 300, 2, 1);
      ProcessBatch(Cfg, ReadLocalEvents([LocalRowFor(1001, "Arsenal", Kickoff)]),
                   [FeedEvent("finished", Int(384), " ARSENAL\t", Kickoff + 300)], [], {row})
      == Tally({row}, 1, 0)
  {
    FinishedMatchIsRecorded();
    BatchRerunAddsNothing(Cfg, ReadLocalEvents([LocalRowFor(1001, "Arsenal", Kickoff)]),
                          [FeedEvent("finished", Int(384), " ARSENAL\t", Kickoff + 300)], [], {});
  }

  /** As written, the reader returns nothing, so even the first example
      writes no row and counts its event as skipped. */
  lemma AsWrittenFinishedMatchIsSkipped()
    ensures ProcessBatch(Cfg, ReadLocalEventsAsWritten([LocalRowFor(1001, "Arsenal", Kickoff)]),
                         [FeedEvent("finished", Int(384), " ARSENAL\t", Kickoff + 300)], [], {})
         == Tally({}, 0, 1)
  {
    AsWrittenBatchMatchesNothing(Cfg, [LocalRowFor(1001, "Arsenal", Kickoff)],
                                 [FeedEvent("finished", Int(384), " ARSENAL\t", Kickoff + 300)], [], {});
  }
}

=== FILE: store.dfy ===
/** The `results` table seen through `INSERT ... ON CONFLICT DO NOTHING`.
    The table's uniqueness constraint is taken to be `event_id`. */
module Store {
  import opened Events

  type Results = set<ResultRow>

  /** The conflict keys present in the table. */
  function Keys(s: Results): set<int> {
    set r | r in s :: r.eventId
  }

  /** The table's invariant: at most one row per key. */
  predicate KeyUnique(s: Results) {
    forall a, b :: a in s && b in s && a.eventId == b.eventId ==> a == b
  }

  /** Insert-if-absent: a row whose key is already present is a silent
      no-op, not an error. */
  function Insert(s: Results, row: ResultRow): (r: Results)
    ensures s <= r <= s + {row}
    ensures Keys(r) == Keys(s) + {row.eventId}
    ensures r == s <==> row.eventId in Keys(s)
    ensures KeyUnique(s) ==> KeyUnique(r)
  {
    if row.eventId in Keys(s) then s else s + {row}
  }

  /** Persisting the same row twice leaves exactly what persisting it once
      left: the second statement adds no row. */
  lemma InsertIdempotent(s: Results, row: ResultRow)
    ensures Insert(Insert(s, row), row) == Insert(s, row)
  {
  }

  /** A row with a fresh key is stored as given and grows the table by one. */
  lemma InsertFreshKey(s: Results, row: ResultRow)
    requires row.eventId !in Keys(s)
    ensures row in Insert(s, row)
    ensures |Insert(s, row)| == |s| + 1
  {
  }
}
